=== FILE: README.md ===
# mqttpc supervision engine in Dafny

mqttpc is a process supervisor driven over MQTT. Clients publish to
`<instance>/set/<proc>/{spawn,pipe,signal}`. The supervisor starts, feeds
and signals the processes named in its process table. It republishes each
process's lifecycle back to `<instance>/status/<proc>/<field>`: pid, exit
status, error text and captured output.

This project models the engine in `index.js` as pure step functions. Each
step takes a state and one event and returns a new state plus an ordered
list of effects. Effects are:

- publish (topic, payload, retain);
- create a child;
- write to stdin;
- end stdin;
- kill;
- raise (an uncaught throw).

Modules, one per file, in dependency order:

- `Text` (`text.dfy`) — JavaScript's decimal rendering of integers (`'' + n`) and `split('/')`, each with its inverse.
- `OutputBuffer` (`buffer.dfy`) — `appendBuffer`: a bounded chunk list that evicts whole chunks from the front and counts the evicted bytes in `clipped`.
- `Model` (`model.dfy`) — process definitions, handler modes, per-process state (`proc._`, `proc.queue`, `proc._fdBuffers`) and effects.
- `Aggregator` (`aggregator.dfy`) — per-chunk dispatch by handler mode (`handleProcessOutputEach`, `handleProcessOutput`) and the exit-time flush (`handleProcessOutputAtExit`).
- `Supervisor` (`supervisor.dfy`) — `processSpawn`, its exit and error handlers, and the `pipe` and `signal` commands. A trace of events for one process is also modelled.
- `Router` (`router.dfy`) — the `message` handler over the whole process table: topic parsing, the retained-status check and command dispatch. Child events are routed too.

Modelling choices:

- **Pids are step parameters.** The OS process-creation primitive is a parameter. Each step receives the pid a child created in that step would get. `None` or `0` means the start yielded no pid.
- **Failed starts still count as running.** As in the code, a process counts as running once `proc._` is assigned (index.js:130), whether or not a pid was obtained.
- **`clipped` can be "not a number".** The buffer record created at exit (index.js:103) has no `clipped` field. Adding to `undefined` gives NaN, so `clipped` is either a byte count or `NotANumber`.
- **Missing topic segments become "undefined".** They are `None`, and using one as a property key reads the key `"undefined"`, as JavaScript does.
- **The retained-status check is a switch.** `Config.retainCheck` selects either the check as written (`AsWritten`) or the per-stream check the code evidently intends (`PerStream`); see Findings.

Behaviours of the code a reader might not expect, all modelled as written:

- **Failed starts:** a start that yields no pid leaves the process running (index.js:130-145).
- **Flush order at exit:** the stdout, stderr and output flushes are published before the pid is cleared and the exit status is published (index.js:153-157).
- **Buffers at exit:** the exit-time flush does not clear the buffer; `delete fdBuf[fdName]` removes nothing (index.js:108). Buffers are reset when the next child starts (index.js:147).
- **Command directions:** the direction segment is compared only with `status`; every other direction, `set` or not, goes to the command switch (index.js:192-204).
- **Topic prefix and length:** the first `|instance|` characters of a topic are cut off without being compared with the instance name, and segments after the fourth are ignored (index.js:181-184).

## Model

| member | source | states |
|---|---|---|
| Text.Decimal | index.js:141 | The text of a non-negative number is one or more decimal digits, with a leading '0' exactly when the number is 0 |
| Text.IntText | index.js:157 | The text of an integer is '-' exactly for negatives, followed by at least one decimal digit and nothing else, with no leading zero unless the integer is 0, and it parses back to the same integer |
| Text.DecimalRoundTrip | index.js:141 | The decimal text of a non-negative number (a pid) parses back to that number |
| Text.Split | index.js:181 | `split('/')` yields at least one part, no part contains '/', and joining the parts with '/' gives back the input |
| Text.SplitJoin | index.js:181 | Splitting undoes joining whenever no part contains '/' |
| OutputBuffer.Evict | index.js:63-67 | Eviction drops some number of oldest chunks; the loop guard held before each drop and fails on the result, and at least one chunk is kept |
| OutputBuffer.Append | index.js:57-68 | After an append the retained chunks are an in-order suffix of the old chunks plus the new one, always ending with the new one; `clipped` grows by exactly the evicted bytes; the loop guard held before every chunk that was dropped, and one chunk remains or len ≤ max + first chunk afterwards; len stays equal to the chunk total |
| OutputBuffer.AppendConserves | index.js:60-66 | Retained plus clipped bytes grow by exactly the size of the appended chunk |
| OutputBuffer.NoEvictUnderCap | index.js:63 | While retained bytes plus the new chunk fit under the cap, nothing is evicted |
| OutputBuffer.UnderCapKeepsAll | index.js:57-68 | Output whose total fits under the cap is kept whole with nothing clipped |
| OutputBuffer.AppendAllTracks | index.js:57-68 | Over any chunk sequence, the retained chunks concatenated are the whole output minus its first `clipped` bytes |
| OutputBuffer.CaptureLaw | index.js:57-68 | From a fresh buffer, clipped plus retained bytes equal all bytes produced, and the retained bytes are exactly the tail of the output |
| Model.HandlerOf | index.js:73 | A missing or empty mode is drop, the five names select their modes, and any other string is an unknown handler |
| Model.HandlerNameRoundTrip | index.js:73-87 | Every mode's name reads back as that mode |
| Model.BufferMax | index.js:62 | The cap is 128 KiB when unset or zero, and otherwise the configured value |
| Model.StatusTopic | index.js:83 | Every publication about a process goes to the instance name, then `/status/`, the process name, '/' and the field; Router.StatusTopicRoute reads it back |
| Aggregator.Buffered | index.js:58-61 | Appending to one descriptor's buffer leaves the child, the queue and every other descriptor's buffer unchanged, and keeps the state valid |
| Aggregator.Dispatch | index.js:70-88 | Drop changes nothing; buffer modes append without publishing; stream modes publish the raw chunk, retained only for stream_retain; any other mode raises |
| Aggregator.HandleOutput | index.js:90-93 | A chunk is dispatched for its own descriptor and then for `output`, unless the first dispatch threw; no child is created and the lifecycle is untouched |
| Aggregator.FlushBuffer | index.js:102-103 | The flush reads the existing buffer, or a fresh record with no bytes, no chunks and no clipped marker; in a valid state it is well formed |
| Aggregator.Marker | index.js:105 | The clipped marker is non-empty exactly when the clipped count is a positive number |
| Aggregator.FlushAtExit | index.js:95-111 | At most one publish, which happens iff the mode buffers and the length is non-zero; it carries marker plus concatenated chunks, retained iff buffer_retain; the buffer is left in place |
| Aggregator.Flushes | index.js:153-155 | The exit-time publishes are exactly the stdout flush, then the stderr flush, then the output flush, each as it would be on its own; all go to capture topics and every existing buffer is kept |
| Aggregator.FlushReportsCapture | index.js:95-111 | For buffered chunks, the flush publishes the marker for the evicted byte count followed by exactly the unevicted tail of the output |
| Aggregator.FlushWholeUnderCap | index.js:95-111 | Output that fits under the cap is flushed whole with no marker |
| Supervisor.StartEffects | index.js:128-173 | Starting emits the retained error clear, then the create with the definition's launch options and the payload, then the retained decimal pid iff one was obtained, then write+end of stdin iff stdinFromSpawnPayload, and nothing else |
| Supervisor.Spawn | index.js:117-175 | Running: no effects, payload queued iff enqueueSpawns. Idle: clears the error topic first, creates exactly one child with the launch options serving the payload, marks running with fresh buffers, publishes the pid as retained decimal text iff one was obtained, ends with write+end of stdin iff stdinFromSpawnPayload, and emits nothing else |
| Supervisor.Pipe | index.js:205-218 | No write when stdin is disabled or nothing runs; a non-empty payload is written, an empty one ends stdin |
| Supervisor.Signal | index.js:226-237 | No kill when nothing runs; otherwise the raw payload is the signal, whatever it looks like |
| Supervisor.OnError | index.js:165-168 | The error text is published retained to the error topic and the state is unchanged |
| Supervisor.ExitText | index.js:157 | The exit status text is the code's decimal text when there is one (and parses back to it); otherwise it is the signal name, or "null" |
| Supervisor.Finish | index.js:151-157 | Exit publishes exactly the three flushes in order, then the empty retained pid, then the retained exit status; no child is created and no buffer is cleared |
| Supervisor.Dequeue | index.js:158-162 | After exit the process is idle with its buffers kept and no further effect when nothing is queued; otherwise it emits exactly the start effects for the oldest queued payload, runs that child with fresh buffers, and the rest stay queued |
| Supervisor.OnExit | index.js:151-163 | The exit reaction begins with the finish effects; with an empty queue those are all its effects, it ends idle and every buffer is kept; otherwise the effects after the finish are exactly the start effects for the head of the queue, which is started with fresh buffers |
| Supervisor.React | index.js:117-175 | Every reaction keeps the process invariant; while a child runs only its exit can create another; the children started followed by the queue equal the old queue followed by the accepted spawn request |
| Supervisor.FifoLedger | index.js:119-121 | Over any run, the children started followed by the queue equal the old queue followed by every accepted spawn request in order |
| Supervisor.FifoOrder | index.js:159-161 | From idle, children serve accepted spawn requests in acceptance order with none skipped, and the unserved ones are exactly the queue |
| Supervisor.ChildBalance | index.js:118-130 | When exits arrive only for a running child, children created plus the one running before equal the one running after plus the exits, so there is never a second child |
| Supervisor.RunPreservesValid | index.js:117-175 | Every state reached satisfies the invariant: an idle process has an empty queue and every buffer's length matches its chunks |
| Router.Strip | index.js:181 | `substr` keeps the topic from the instance name's length on, or nothing past its end |
| Router.ParseTopic | index.js:181-184 | The parsed segments contain no '/', and a command segment only exists with a direction and a process |
| Router.ParseTopicSegments | index.js:181-184 | For any topic, the route is segments 1 to 3 of what follows the first `|instance|` characters, missing ones absent |
| Router.ParseTopicIgnoresTail | index.js:181-184 | Segments after the fourth do not change the route |
| Router.ParseTopicRoundTrip | index.js:181-184 | `<instance>/<dir>/<proc>/<cmd>` parses back into its three segments |
| Router.StatusTopicRoute | index.js:192 | Every status topic the supervisor publishes is read back as a status message for that process and field |
| Router.Key | index.js:186 | A segment used as a property key is itself, and a missing one reads the key "undefined" |
| Router.ArrayText | index.js:114 | `[fdName]` compared with a string is the name itself, and the empty string when the name is missing |
| Router.FdActionHasRetain | index.js:113-115 | As written, the check is true iff the field named by the descriptor key is buffer_retain or the descriptor name itself is "stream_retain"; with no descriptor it reads the property "undefined" |
| Router.RetainedAsWritten | index.js:196 | The call the handler makes holds iff the definition's property "undefined" is buffer_retain |
| Router.AsWrittenIgnoresStream | index.js:196 | The check the handler calls does not depend on the topic's stream at all |
| Router.RetainedPerStream | index.js:113-115 | The intended check holds iff the topic's stream is configured buffer_retain or stream_retain |
| Router.CommandEvent | index.js:204-242 | "pipe" becomes a pipe, "spawn" a spawn and "signal" a signal of the payload; anything else is ignored |
| Router.Deliver | index.js:190 | A command or child event changes only the addressed process, exactly as its reaction says, and keeps every process valid |
| Router.OnMessage | index.js:177-244 | Unknown processes and commands change nothing; status messages never touch state and only erase a retained value failing the check; commands run the addressed process's reaction; nothing else changes |
| Router.Step | index.js:148-168 | Child events reach only their own process's reaction; broker messages go to the message handler |
| Router.AsWrittenErasesRetainedStatus | index.js:192-200 | With the check as written, every retained status message for a defined process, whatever its payload, is erased, whatever the stream's mode, unless the definition has a property literally named "undefined" set to buffer_retain |
| Router.PerStreamErasesOnlyStale | index.js:192-200 | With the per-stream check, a retained status message with any payload is erased exactly when its stream's mode does not retain |
| Router.RetainCheckCounterexample | index.js:196 | A stream_retain stdout whose retained value is "old output" loses it under the as-written check and keeps it under the per-stream one |
| Router.RunAllValid | index.js:177-244 | Every world reachable from a valid one keeps every process valid |

## Left out

- The MQTT client, its connect/close/error handlers, the last will and the `mqttConnected` flag (index.js:15-55): transport plumbing. A publish is an effect.
- Subscriptions and the 20-second unsubscribe timer (index.js:30-42): timer and transport side effects. Messages arriving after the unsubscribe are simply not delivered to the model.
- `config.js`: command-line parsing with no logic of its own. The instance name is `Config.instance`.
- Loading `procs.json` with `require`: the process table is a given map.
- `child_process.spawn` and OS signal delivery: a child is an abstract handle with an optional pid, and write, end and kill are effects.
- Logging through yalm, including every log-only branch. The `/SIG[A-Z]+/` test on signal payloads (index.js:231) only logs, so it has no counterpart.
- Buffer and UTF-8 conversions (`payload.toString()`, `Buffer.concat`, `result.toString()`): payloads and chunks are character sequences, and lengths count characters.
- String lengths in general: JavaScript measures strings in UTF-16 code units, the model in characters. This includes `topic.substr(config.name.length)` (index.js:181), so the lengths of topics and of the instance name count characters, not UTF-16 code units. The two differ only for an instance name with characters outside the Basic Multilingual Plane.
- The error event's `e.toString()`: the error text is an input of the event.
- Property lookups that reach `Object.prototype` (a process or descriptor named `constructor`, say): the process table and the settings are plain maps.
- Model.BufferMax: the setting is taken to be a number; a string in procs.json would make `max_buffer_size + fdBuf.data[0].length` (index.js:63) concatenate text, so the cap would not be the configured value.
- Non-string values in a definition's mode fields and JavaScript's loose `==` on them: modes are strings.
- An uncaught throw from an unknown handler ends the event with a `Raise` effect and no further effects. What Node does with the process afterwards is not modelled.
- Router.Step: child events for a name not in the process table are ignored, because a child only ever exists for a defined process.
- Supervisor.ChildBalance: assumes exits are only reported while a child runs, which the OS guarantees and the code does not check.

## Findings

| source | as written | input that shows it | evidently intended | confidence | as-written member | corrected member |
|---|---|---|---|---|---|---|
| index.js:196 | `fdActionHasRetain(proc)` is called without the descriptor, and compares the array `[fdName]` instead of `proc[fdName]` with 'stream_retain' (index.js:114), so it ignores the stream | process `job` with `stdout: "stream_retain"` and a retained message "old output" on `pc/status/job/stdout`: the handler erases it | keep a retained status message exactly when its stream's mode is buffer_retain or stream_retain | high, not executed | Router.RetainCheckCounterexample | Router.PerStreamErasesOnlyStale |

=== FILE: aggregator.dfy ===
/** Output capture: per-chunk delivery by handler mode (`handleProcessOutputEach`,
    `handleProcessOutput`) and the exit-time flush of buffered output
    (`handleProcessOutputAtExit`). */
module Aggregator {
  import opened Text
  import opened OutputBuffer
  import opened Model

  function BufferOf(ps: ProcState, fd: Fd): OutBuf {
    if fd in ps.buffers then ps.buffers[fd] else Empty
  }

  /** Replacing one buffer by a well-formed one keeps a state valid. */
  lemma ReplaceKeepsValid(ps: ProcState, fd: Fd, b: OutBuf)
    requires Valid(ps) && WellFormed(b)
    ensures Valid(ps.(buffers := ps.buffers[fd := b]))
  {
    var m := ps.buffers[fd := b];
    forall g | g in m ensures WellFormed(m[g]) {
      if g != fd {
        assert m[g] == ps.buffers[g];
      }
    }
  }

  /** The process state after `appendBuffer` on one descriptor; the other
      descriptors' buffers are untouched. */
  function Buffered(ps: ProcState, fd: Fd, data: string, max: int): (r: ProcState)
    ensures r.running == ps.running && r.queue == ps.queue
    ensures fd in r.buffers && r.buffers[fd] == Append(BufferOf(ps, fd), data, max)
    ensures forall g :: g != fd ==> BufferOf(r, g) == BufferOf(ps, g) && (g in r.buffers <==> g in ps.buffers)
    ensures Valid(ps) ==> Valid(r)
  {
    var after := Append(BufferOf(ps, fd), data, max);
    if Valid(ps) then
      ReplaceKeepsValid(ps, fd, after);
      ps.(buffers := ps.buffers[fd := after])
    else
      ps.(buffers := ps.buffers[fd := after])
  }

  /** One descriptor's delivery of one chunk. */
  function Dispatch(instance: string, name: string, def: Definition, ps: ProcState, fd: Fd, data: string): (r: Reaction)
    ensures r.state.running == ps.running && r.state.queue == ps.queue
    ensures HandlerFor(def, fd) == Drop ==> r == Reaction(ps, [])
    ensures IsBuffering(HandlerFor(def, fd)) ==> r == Reaction(Buffered(ps, fd, data, BufferMax(def)), [])
    ensures HandlerFor(def, fd) in {Stream, StreamRetain} ==>
      r == Reaction(ps, [Publish(StatusTopic(instance, name, FdName(fd)), data, HandlerFor(def, fd) == StreamRetain)])
    ensures HandlerFor(def, fd).Unknown? ==>
      r == Reaction(ps, [Raise(UnknownHandler(name, HandlerFor(def, fd).setting))])
    ensures Valid(ps) ==> Valid(r.state)
  {
    var h := HandlerFor(def, fd);
    if IsBuffering(h) then Reaction(Buffered(ps, fd, data, BufferMax(def)), [])
    else if h == Stream || h == StreamRetain then
      Reaction(ps, [Publish(StatusTopic(instance, name, FdName(fd)), data, h == StreamRetain)])
    else if h.Unknown? then Reaction(ps, [Raise(UnknownHandler(name, h.setting))])
    else Reaction(ps, [])
  }

  /** Delivering a chunk never creates a child. */
  lemma DispatchNoCreate(instance: string, name: string, def: Definition, ps: ProcState, fd: Fd, data: string)
    ensures NoCreate(Dispatch(instance, name, def, ps, fd, data).effects)
  {
  }

  /** A chunk from one of the child's pipes: delivered for its own descriptor,
      then for `output`, unless the first delivery threw. */
  function HandleOutput(instance: string, name: string, def: Definition, ps: ProcState, fd: ChildFd, data: string): (r: Reaction)
    ensures r.state.running == ps.running && r.state.queue == ps.queue
    ensures NoCreate(r.effects)
    ensures var own := Dispatch(instance, name, def, ps, fd, data);
      if HandlerFor(def, fd).Unknown? then r == own
      else r == Reaction(Dispatch(instance, name, def, own.state, Combined, data).state,
                         own.effects + Dispatch(instance, name, def, own.state, Combined, data).effects)
    ensures Valid(ps) ==> Valid(r.state)
  {
    var own := Dispatch(instance, name, def, ps, fd, data);
    DispatchNoCreate(instance, name, def, ps, fd, data);
    if HandlerFor(def, fd).Unknown? then own
    else
      var shared := Dispatch(instance, name, def, own.state, Combined, data);
      DispatchNoCreate(instance, name, def, own.state, Combined, data);
      NoCreateConcat(own.effects, shared.effects);
      Reaction(shared.state, own.effects + shared.effects)
  }

  /** The line put in front of flushed output when bytes were evicted. */
  function Marker(c: Clipped): (m: string)
    ensures |m| > 0 <==> c.Bytes? && c.n > 0
    ensures c.Bytes? && c.n > 0 ==> m == "...(clipped " + Decimal(c.n) + ")...\n"
  {
    if c.Bytes? && c.n > 0 then "...(clipped " + Decimal(c.n) + ")...\n" else ""
  }

  /** The buffer the exit-time flush reads: the existing one, or a fresh
      record created without a `clipped` field. */
  function FlushBuffer(ps: ProcState, fd: Fd): (b: OutBuf)
    ensures fd in ps.buffers ==> b == ps.buffers[fd]
    ensures fd !in ps.buffers ==> b.len == 0 && b.chunks == [] && Marker(b.clipped) == ""
    ensures Valid(ps) ==> WellFormed(b)
  {
    if fd in ps.buffers then ps.buffers[fd] else OutBuf(0, [], NotANumber)
  }

  /** A publication to one of the process's capture topics. */
  predicate IsCapturePublish(instance: string, name: string, e: Effect) {
    && e.Publish?
    && e.topic in {StatusTopic(instance, name, "stdout"), StatusTopic(instance, name, "stderr"), StatusTopic(instance, name, "output")}
  }

  predicate AllCapture(instance: string, name: string, effects: seq<Effect>) {
    forall i :: 0 <= i < |effects| ==> IsCapturePublish(instance, name, effects[i])
  }

  lemma AllCaptureConcat(instance: string, name: string, a: seq<Effect>, b: seq<Effect>)
    requires AllCapture(instance, name, a) && AllCapture(instance, name, b)
    ensures AllCapture(instance, name, a + b)
  {
    forall i | 0 <= i < |a + b| ensures IsCapturePublish(instance, name, (a + b)[i]) {
      if i < |a| {
        assert (a + b)[i] == a[i];
      } else {
        assert (a + b)[i] == b[i - |a|];
      }
    }
  }

  /** `after` has the same child and queue as `before`, and every buffer of
      `before` is still there unchanged. */
  predicate Keeps(before: ProcState, after: ProcState) {
    && after.running == before.running
    && after.queue == before.queue
    && forall fd :: fd in before.buffers ==> fd in after.buffers && after.buffers[fd] == before.buffers[fd]
  }

  lemma KeepsTrans(a: ProcState, b: ProcState, c: ProcState)
    requires Keeps(a, b) && Keeps(b, c)
    ensures Keeps(a, c)
  {
  }

  /** Exit-time flush of one descriptor. Only buffering modes publish, only
      when something is retained, retained only for `buffer_retain`; the
      buffer itself is left in place. */
  function FlushAtExit(instance: string, name: string, def: Definition, ps: ProcState, fd: Fd): (r: Reaction)
    ensures Keeps(ps, r.state)
    ensures |r.effects| <= 1
    ensures |r.effects| == 1 <==> IsBuffering(HandlerFor(def, fd)) && FlushBuffer(ps, fd).len != 0
    ensures |r.effects| == 1 ==>
      var b := FlushBuffer(ps, fd);
      r.effects[0] == Publish(StatusTopic(instance, name, FdName(fd)), Marker(b.clipped) + Flatten(b.chunks),
                              HandlerFor(def, fd) == BufferRetain)
    ensures AllCapture(instance, name, r.effects)
    ensures !IsBuffering(HandlerFor(def, fd)) ==> r.state == ps
    ensures fd in ps.buffers ==> r.state == ps
    ensures Valid(ps) ==> Valid(r.state)
  {
    var h := HandlerFor(def, fd);
    if !IsBuffering(h) then Reaction(ps, [])
    else
      var b := FlushBuffer(ps, fd);
      var kept := ps.(buffers := ps.buffers[fd := b]);
      assert fd in ps.buffers ==> kept == ps;
      assert Valid(ps) ==> Valid(kept) by {
        if Valid(ps) {
          ReplaceKeepsValid(ps, fd, b);
        }
      }
      if b.len == 0 then Reaction(kept, [])
      else Reaction(kept, [Publish(StatusTopic(instance, name, FdName(fd)), Marker(b.clipped) + Flatten(b.chunks), h == BufferRetain)])
  }

  /** A flush leaves the other descriptors' buffers as they were. */
  lemma FlushOther(instance: string, name: string, def: Definition, ps: ProcState, fd: Fd, g: Fd)
    requires g != fd
    ensures FlushBuffer(FlushAtExit(instance, name, def, ps, fd).state, g) == FlushBuffer(ps, g)
  {
    var s := FlushAtExit(instance, name, def, ps, fd).state;
    assert s.buffers.Keys <= ps.buffers.Keys + {fd};
  }

  /** What a flush publishes depends only on its own descriptor's buffer. */
  lemma FlushReads(instance: string, name: string, def: Definition, ps: ProcState, qs: ProcState, fd: Fd)
    requires FlushBuffer(ps, fd) == FlushBuffer(qs, fd)
    ensures FlushAtExit(instance, name, def, ps, fd).effects == FlushAtExit(instance, name, def, qs, fd).effects
  {
  }

  /** The three exit-time flushes, in the order stdout, stderr, output. */
  function Flushes(instance: string, name: string, def: Definition, ps: ProcState): (r: Reaction)
    ensures Keeps(ps, r.state)
    ensures |r.effects| <= 3
    ensures AllCapture(instance, name, r.effects)
    ensures r.effects == FlushAtExit(instance, name, def, ps, Stdout).effects
                       + FlushAtExit(instance, name, def, ps, Stderr).effects
                       + FlushAtExit(instance, name, def, ps, Combined).effects
    ensures Valid(ps) ==> Valid(r.state)
  {
    var out := FlushAtExit(instance, name, def, ps, Stdout);
    var err := FlushAtExit(instance, name, def, out.state, Stderr);
    var all := FlushAtExit(instance, name, def, err.state, Combined);
    assert err.effects == FlushAtExit(instance, name, def, ps, Stderr).effects by {
      FlushOther(instance, name, def, ps, Stdout, Stderr);
      FlushReads(instance, name, def, out.state, ps, Stderr);
    }
    assert all.effects == FlushAtExit(instance, name, def, ps, Combined).effects by {
      FlushOther(instance, name, def, ps, Stdout, Combined);
      FlushOther(instance, name, def, out.state, Stderr, Combined);
      FlushReads(instance, name, def, err.state, ps, Combined);
    }
    KeepsTrans(ps, out.state, err.state);
    KeepsTrans(ps, err.state, all.state);
    AllCaptureConcat(instance, name, out.effects, err.effects);
    AllCaptureConcat(instance, name, out.effects + err.effects, all.effects);
    Reaction(all.state, out.effects + err.effects + all.effects)
  }

  /** End-to-end capture: when the chunks `cs` were all appended to a
      descriptor's fresh buffer, its exit-time flush publishes the marker for
      the evicted byte count followed by exactly the rest of the output. */
  lemma FlushReportsCapture(instance: string, name: string, def: Definition, ps: ProcState, fd: Fd, cs: seq<string>)
    requires IsBuffering(HandlerFor(def, fd))
    requires fd in ps.buffers && ps.buffers[fd] == AppendAll(Empty, cs, BufferMax(def))
    requires ps.buffers[fd].len != 0
    ensures var c := ps.buffers[fd].clipped;
      && c.Bytes?
      && c.n <= |Flatten(cs)|
      && FlushAtExit(instance, name, def, ps, fd).effects
         == [Publish(StatusTopic(instance, name, FdName(fd)), Marker(c) + Flatten(cs)[c.n..],
                     HandlerFor(def, fd) == BufferRetain)]
  {
    var b := ps.buffers[fd];
    CaptureLaw(cs, BufferMax(def));
    FlattenLength(cs);
    FlattenLength(b.chunks);
  }

  /** Output that fits under the cap is flushed at exit whole and without a
      clipped marker, retained exactly for `buffer_retain`. */
  lemma FlushWholeUnderCap(instance: string, name: string, def: Definition, ps: ProcState, fd: Fd, cs: seq<string>)
    requires IsBuffering(HandlerFor(def, fd))
    requires 0 < Sum(cs) <= BufferMax(def)
    requires fd in ps.buffers && ps.buffers[fd] == AppendAll(Empty, cs, BufferMax(def))
    ensures FlushAtExit(instance, name, def, ps, fd).effects
            == [Publish(StatusTopic(instance, name, FdName(fd)), Flatten(cs), HandlerFor(def, fd) == BufferRetain)]
  {
    UnderCapKeepsAll([], cs, BufferMax(def));
    assert [] + cs == cs;
    assert Marker(Bytes(0)) + Flatten(cs) == Flatten(cs);
  }
}

=== FILE: buffer.dfy ===
/** The bounded per-descriptor output buffer (`appendBuffer`): whole chunks
    are evicted from the front while the buffer is over its cap, the newest
    chunk is never evicted, and every evicted byte is counted in `clipped`. */
module OutputBuffer {

  /** The running count of evicted bytes. A JavaScript buffer record created
      without a `clipped` field holds `undefined`, and adding to it gives NaN;
      both are falsy and absorb further additions, so one value stands for both. */
  datatype Clipped = Bytes(n: nat) | NotANumber

  function Add(c: Clipped, k: nat): Clipped {
    match c
    case Bytes(n) => Bytes(n + k)
    case NotANumber => NotANumber
  }

  /** `{ len, data, clipped }`: retained bytes, chunks oldest first, evicted bytes. */
  datatype OutBuf = OutBuf(len: int, chunks: seq<string>, clipped: Clipped)

  /** The record `appendBuffer` creates for a descriptor seen for the first time. */
  const Empty := OutBuf(0, [], Bytes(0))

  function Sum(chunks: seq<string>): nat
    decreases |chunks|
  {
    if |chunks| == 0 then 0 else |chunks[0]| + Sum(chunks[1..])
  }

  /** `Buffer.concat` of the chunks, in order. */
  function Flatten(chunks: seq<string>): string
    decreases |chunks|
  {
    if |chunks| == 0 then [] else chunks[0] + Flatten(chunks[1..])
  }

  /** `len` is the total size of the retained chunks. */
  predicate WellFormed(b: OutBuf) {
    b.len == Sum(b.chunks)
  }

  /** The eviction loop's guard. */
  predicate MustEvict(b: OutBuf, max: int) {
    |b.chunks| > 1 && b.len > max + |b.chunks[0]|
  }

  /** The buffer after the `k` oldest chunks have been shifted out. */
  function DropOldest(b: OutBuf, k: nat): OutBuf
    requires k <= |b.chunks|
  {
    OutBuf(b.len - Sum(b.chunks[..k]), b.chunks[k..], Add(b.clipped, Sum(b.chunks[..k])))
  }

  lemma {:induction false} SumConcat(a: seq<string>, b: seq<string>)
    ensures Sum(a + b) == Sum(a) + Sum(b)
    decreases |a|
  {
    if |a| == 0 {
      assert a + b == b;
    } else {
      assert (a + b)[1..] == a[1..] + b;
      SumConcat(a[1..], b);
    }
  }

  lemma SumSplit(s: seq<string>, k: nat)
    requires k <= |s|
    ensures Sum(s) == Sum(s[..k]) + Sum(s[k..])
  {
    assert s == s[..k] + s[k..];
    SumConcat(s[..k], s[k..]);
  }

  lemma {:induction false} FlattenConcat(a: seq<string>, b: seq<string>)
    ensures Flatten(a + b) == Flatten(a) + Flatten(b)
    decreases |a|
  {
    if |a| == 0 {
      assert a + b == b;
    } else {
      assert (a + b)[1..] == a[1..] + b;
      FlattenConcat(a[1..], b);
    }
  }

  lemma {:induction false} FlattenLength(s: seq<string>)
    ensures |Flatten(s)| == Sum(s)
    decreases |s|
  {
    if |s| > 0 {
      FlattenLength(s[1..]);
    }
  }

  lemma DropNothing(b: OutBuf)
    ensures DropOldest(b, 0) == b
  {
    assert b.chunks[..0] == [];
    assert b.chunks[0..] == b.chunks;
  }

  lemma DropTwice(b: OutBuf, j: nat)
    requires 1 + j <= |b.chunks|
    ensures DropOldest(DropOldest(b, 1), j) == DropOldest(b, 1 + j)
  {
    var s := b.chunks;
    assert s[..1 + j] == [s[0]] + s[1..][..j];
    SumConcat([s[0]], s[1..][..j]);
    assert Sum([s[0]]) == |s[0]| by {
      assert [s[0]][1..] == [];
    }
    assert s[..1] == [s[0]];
    assert s[1..][j..] == s[1 + j..];
  }

  /** The eviction loop. The result drops some number of oldest chunks; the
      guard held before each of those drops and fails on the result, which
      determines the result uniquely. */
  function Evict(b: OutBuf, max: int): (r: OutBuf)
    ensures |r.chunks| <= |b.chunks|
    ensures |b.chunks| >= 1 ==> |r.chunks| >= 1
    ensures r == DropOldest(b, |b.chunks| - |r.chunks|)
    ensures forall j :: 0 <= j < |b.chunks| - |r.chunks| ==> MustEvict(DropOldest(b, j), max)
    ensures !MustEvict(r, max)
    decreases |b.chunks|
  {
    if MustEvict(b, max) then
      var next := DropOldest(b, 1);
      var r := Evict(next, max);
      DropTwice(b, |next.chunks| - |r.chunks|);
      DropNothing(b);
      assert forall j :: 1 <= j < |b.chunks| - |r.chunks| ==> DropOldest(b, j) == DropOldest(next, j - 1) by {
        forall j | 1 <= j < |b.chunks| - |r.chunks| ensures DropOldest(b, j) == DropOldest(next, j - 1) {
          DropTwice(b, j - 1);
        }
      }
      r
    else
      DropNothing(b);
      b
  }

  /** The buffer right after `push`, before any eviction. */
  function Pushed(b: OutBuf, data: string): OutBuf {
    OutBuf(b.len + |data|, b.chunks + [data], b.clipped)
  }

  lemma PushedWellFormed(b: OutBuf, data: string)
    requires WellFormed(b)
    ensures WellFormed(Pushed(b, data))
  {
    SumConcat(b.chunks, [data]);
    assert Sum([data]) == |data| by {
      assert [data][1..] == [];
    }
  }

  lemma DropWellFormed(b: OutBuf, k: nat)
    requires k <= |b.chunks|
    requires WellFormed(b)
    ensures WellFormed(DropOldest(b, k))
  {
    SumSplit(b.chunks, k);
  }

  lemma EvictWellFormed(b: OutBuf, max: int)
    requires WellFormed(b)
    ensures WellFormed(Evict(b, max))
  {
    var r := Evict(b, max);
    DropWellFormed(b, |b.chunks| - |r.chunks|);
  }

  /** `appendBuffer`: push the chunk, then evict. */
  function Append(b: OutBuf, data: string, max: int): (r: OutBuf)
    ensures 1 <= |r.chunks| <= |b.chunks| + 1
    ensures r.chunks[|r.chunks| - 1] == data
    ensures r.chunks == (b.chunks + [data])[|b.chunks| + 1 - |r.chunks|..]
    ensures r.clipped == Add(b.clipped, Sum((b.chunks + [data])[..|b.chunks| + 1 - |r.chunks|]))
    ensures |r.chunks| == 1 || r.len <= max + |r.chunks[0]|
    ensures forall j :: 0 <= j < |b.chunks| + 1 - |r.chunks| ==> MustEvict(DropOldest(Pushed(b, data), j), max)
    ensures WellFormed(b) ==> WellFormed(r)
  {
    if WellFormed(b) then
      PushedWellFormed(b, data);
      EvictWellFormed(Pushed(b, data), max);
      Evict(Pushed(b, data), max)
    else
      Evict(Pushed(b, data), max)
  }

  /** Byte conservation: what is retained plus what was clipped grows by
      exactly the size of the appended chunk. */
  lemma AppendConserves(b: OutBuf, data: string, max: int)
    requires WellFormed(b) && b.clipped.Bytes?
    ensures Append(b, data, max).clipped.Bytes?
    ensures Append(b, data, max).clipped.n + Append(b, data, max).len == b.clipped.n + b.len + |data|
  {
    var all := b.chunks + [data];
    var r := Append(b, data, max);
    var k := |all| - |r.chunks|;
    SumSplit(all, k);
    SumConcat(b.chunks, [data]);
    assert Sum([data]) == |data| by {
      assert [data][1..] == [];
    }
  }

  /** The retained chunks followed by nothing else are exactly the output
      `hist` with its first `clipped` bytes removed. */
  predicate Tracks(b: OutBuf, hist: seq<string>) {
    && WellFormed(b)
    && b.clipped.Bytes?
    && b.clipped.n <= |Flatten(hist)|
    && Flatten(hist)[b.clipped.n..] == Flatten(b.chunks)
  }

  /** Pure string step of the capture law: dropping the clipped prefix and
      then the evicted chunks leaves the retained chunks. */
  lemma ShiftSuffix(whole: string, f: string, data: string, p: string, kept: string, y: string, z: string, n: nat)
    requires whole == f + data
    requires f == p + kept
    requires kept + data == y + z
    requires n == |p| + |y|
    ensures n <= |whole|
    ensures whole[n..] == z
  {
    assert whole == p + (kept + data);
    assert whole == (p + y) + z;
  }

  /** What one append does to the concatenated contents: the old contents
      followed by the new chunk are the evicted chunks followed by the
      retained ones. */
  lemma AppendFlatten(b: OutBuf, data: string, max: int)
    ensures var r := Append(b, data, max);
      var evicted := (b.chunks + [data])[..|b.chunks| + 1 - |r.chunks|];
      && Flatten(b.chunks) + data == Flatten(evicted) + Flatten(r.chunks)
      && |Flatten(evicted)| == Sum(evicted)
  {
    var r := Append(b, data, max);
    FlattenSnoc(b.chunks, data);
    SplitFlatten(b.chunks + [data], |b.chunks| + 1 - |r.chunks|);
  }

  lemma SplitFlatten(all: seq<string>, k: nat)
    requires k <= |all|
    ensures Flatten(all) == Flatten(all[..k]) + Flatten(all[k..])
    ensures |Flatten(all[..k])| == Sum(all[..k])
  {
    assert all == all[..k] + all[k..];
    FlattenConcat(all[..k], all[k..]);
    FlattenLength(all[..k]);
  }

  lemma FlattenSnoc(hist: seq<string>, data: string)
    ensures Flatten(hist + [data]) == Flatten(hist) + data
  {
    assert Flatten([data]) == data by {
      assert [data][1..] == [];
    }
    FlattenConcat(hist, [data]);
  }

  /** One step of the capture law, stated over any buffer `r` that relates
      to `b` the way an append does. */
  lemma TracksStep(b: OutBuf, hist: seq<string>, data: string, r: OutBuf, evicted: seq<string>)
    requires Tracks(b, hist)
    requires WellFormed(r)
    requires r.clipped == Bytes(b.clipped.n + Sum(evicted))
    requires |Flatten(evicted)| == Sum(evicted)
    requires Flatten(b.chunks) + data == Flatten(evicted) + Flatten(r.chunks)
    ensures Tracks(r, hist + [data])
  {
    var F := Flatten(hist);
    var c := b.clipped.n;
    FlattenSnoc(hist, data);
    assert F == F[..c] + Flatten(b.chunks);
    ShiftSuffix(Flatten(hist + [data]), F, data, F[..c], Flatten(b.chunks), Flatten(evicted), Flatten(r.chunks), r.clipped.n);
  }

  lemma AppendTracks(b: OutBuf, hist: seq<string>, data: string, max: int)
    requires Tracks(b, hist)
    ensures Tracks(Append(b, data, max), hist + [data])
  {
    var r := Append(b, data, max);
    AppendFlatten(b, data, max);
    TracksStep(b, hist, data, r, (b.chunks + [data])[..|b.chunks| + 1 - |r.chunks|]);
  }

  /** The buffer after a sequence of chunks arrived, oldest first. */
  function AppendAll(b: OutBuf, cs: seq<string>, max: int): OutBuf
    decreases |cs|
  {
    if |cs| == 0 then b else AppendAll(Append(b, cs[0], max), cs[1..], max)
  }

  /** Capture law: starting from a fresh buffer, after any sequence of chunks
      the retained chunks are exactly the whole output minus its first
      `clipped` bytes, and the buffer is well formed. */
  lemma {:induction false} CaptureLaw(cs: seq<string>, max: int)
    ensures var r := AppendAll(Empty, cs, max);
      && WellFormed(r)
      && r.clipped.Bytes?
      && r.clipped.n + |Flatten(r.chunks)| == |Flatten(cs)|
      && Flatten(cs)[r.clipped.n..] == Flatten(r.chunks)
  {
    AppendAllTracks(Empty, [], cs, max);
    assert [] + cs == cs;
    FlattenLength(AppendAll(Empty, cs, max).chunks);
  }

  lemma SnocFront(hist: seq<string>, cs: seq<string>)
    requires |cs| > 0
    ensures hist + [cs[0]] + cs[1..] == hist + cs
  {
    assert [cs[0]] + cs[1..] == cs;
  }

  lemma {:induction false} AppendAllTracks(b: OutBuf, hist: seq<string>, cs: seq<string>, max: int)
    requires Tracks(b, hist)
    ensures Tracks(AppendAll(b, cs, max), hist + cs)
    decreases |cs|
  {
    if |cs| == 0 {
      assert hist + cs == hist;
    } else {
      var next := Append(b, cs[0], max);
      var seen := hist + [cs[0]];
      AppendTracks(b, hist, cs[0], max);
      AppendAllTracks(next, seen, cs[1..], max);
      SnocFront(hist, cs);
      assert AppendAll(b, cs, max) == AppendAll(next, cs[1..], max);
    }
  }

  /** While the retained bytes plus the new chunk fit under the cap, an
      append evicts nothing. */
  lemma NoEvictUnderCap(b: OutBuf, data: string, max: int)
    requires WellFormed(b) && b.len + |data| <= max
    ensures Append(b, data, max) == Pushed(b, data)
  {
    var p := Pushed(b, data);
    var r := Evict(p, max);
    DropNothing(p);
    assert !MustEvict(DropOldest(p, 0), max);
    assert |r.chunks| == |p.chunks|;
  }

  /** Output that fits under the cap is kept whole: nothing is clipped and the
      buffer holds every chunk, in order. */
  lemma {:induction false} UnderCapKeepsAll(pre: seq<string>, cs: seq<string>, max: int)
    requires Sum(pre) + Sum(cs) <= max
    ensures AppendAll(OutBuf(Sum(pre), pre, Bytes(0)), cs, max) == OutBuf(Sum(pre + cs), pre + cs, Bytes(0))
    decreases |cs|
  {
    if |cs| == 0 {
      assert pre + cs == pre;
    } else {
      var b := OutBuf(Sum(pre), pre, Bytes(0));
      var seen := pre + [cs[0]];
      NoEvictUnderCap(b, cs[0], max);
      SumConcat(pre, [cs[0]]);
      assert Sum([cs[0]]) == |cs[0]| by {
        assert [cs[0]][1..] == [];
      }
      assert Pushed(b, cs[0]) == OutBuf(Sum(seen), seen, Bytes(0));
      UnderCapKeepsAll(seen, cs[1..], max);
      SnocFront(pre, cs);
    }
  }
}

=== FILE: model.dfy ===
/** Process definitions, per-process runtime state and the effects a
    reaction emits. */
module Model {
  import opened Text
  import opened OutputBuffer

  datatype Option<+T> = None | Some(value: T)

  /** The stream descriptors tracked per process; `Combined` is the synthetic
      `output` descriptor that sees every chunk of both pipes. */
  datatype Fd = Stdout | Stderr | Combined

  /** The descriptors a child actually writes to. */
  type ChildFd = fd: Fd | !fd.Combined? witness Stdout

  function FdName(fd: Fd): string {
    match fd
    case Stdout => "stdout"
    case Stderr => "stderr"
    case Combined => "output"
  }

  /** A handler mode as the switch in the output handlers reads it. */
  datatype Handler = Drop | Buffer | BufferRetain | Stream | StreamRetain | Unknown(setting: string)

  function HandlerName(h: Handler): string {
    match h
    case Drop => "drop"
    case Buffer => "buffer"
    case BufferRetain => "buffer_retain"
    case Stream => "stream"
    case StreamRetain => "stream_retain"
    case Unknown(s) => s
  }

  const KnownHandlerNames: set<string> := {"drop", "buffer", "buffer_retain", "stream", "stream_retain"}

  /** `proc[fdName] || 'drop'` followed by the switch: a missing or empty
      setting means drop, the five names select their mode, and any other
      string is an unknown handler. */
  function HandlerOf(setting: Option<string>): (h: Handler)
    ensures setting.None? || setting == Some("") ==> h == Drop
    ensures h.Unknown? <==> setting.Some? && setting.value != "" && setting.value !in KnownHandlerNames
    ensures setting.Some? && setting.value != "" ==> HandlerName(h) == setting.value
  {
    match setting
    case None => Drop
    case Some(s) =>
      if s == "" || s == "drop" then Drop
      else if s == "buffer" then Buffer
      else if s == "buffer_retain" then BufferRetain
      else if s == "stream" then Stream
      else if s == "stream_retain" then StreamRetain
      else Unknown(s)
  }

  /** Every mode's name reads back as that mode. */
  lemma HandlerNameRoundTrip(h: Handler)
    requires !h.Unknown? || (h.setting != "" && h.setting !in KnownHandlerNames)
    ensures HandlerOf(Some(HandlerName(h))) == h
  {
  }

  predicate IsBuffering(h: Handler) {
    h == Buffer || h == BufferRetain
  }

  /** The options handed to the process-creation primitive. */
  datatype Launch = Launch(
    path: string,
    args: seq<string>,
    cwd: Option<string>,
    env: Option<map<string, string>>,
    uid: Option<int>,
    gid: Option<int>,
    shell: bool)

  /** One entry of the process table. `settings` holds the definition's
      string-valued fields by name; handler modes are looked up in it by
      descriptor name (`stdout`, `stderr`, `output`). */
  datatype Definition = Definition(
    launch: Launch,
    settings: map<string, string>,
    bufferMax: Option<int>,
    disableStdin: bool,
    stdinFromSpawnPayload: bool,
    enqueueSpawns: bool)

  function Setting(def: Definition, key: string): Option<string> {
    if key in def.settings then Some(def.settings[key]) else None
  }

  function HandlerFor(def: Definition, fd: Fd): Handler {
    HandlerOf(Setting(def, FdName(fd)))
  }

  const DefaultBufferMax: int := 128 * 1024

  /** `proc.bufferMax || DEFAULT_BUF_SIZE`: an unset or zero cap falls back to
      128 KiB, any other configured value is used as is. */
  function BufferMax(def: Definition): (max: int)
    ensures max != 0
    ensures def.bufferMax.None? || def.bufferMax == Some(0) ==> max == DefaultBufferMax
    ensures def.bufferMax.Some? && def.bufferMax.value != 0 ==> max == def.bufferMax.value
  {
    match def.bufferMax
    case None => DefaultBufferMax
    case Some(v) => if v == 0 then DefaultBufferMax else v
  }

  /** The handle `proc._`; a start that yielded no pid still produces one. */
  datatype Child = Child(pid: Option<nat>)

  /** A pid counts as obtained when it is present and truthy. */
  predicate PidKnown(pid: Option<nat>) {
    pid.Some? && pid.value != 0
  }

  /** `proc._`, `proc.queue` and `proc._fdBuffers` of one process. */
  datatype ProcState = ProcState(running: Option<Child>, queue: seq<string>, buffers: map<Fd, OutBuf>)

  const Idle := ProcState(None, [], map[])

  /** Invariant of every reachable state: an idle process has nothing queued,
      and every buffer's `len` is the size of its chunks. */
  predicate Valid(ps: ProcState) {
    && (ps.running.None? ==> ps.queue == [])
    && forall fd :: fd in ps.buffers ==> WellFormed(ps.buffers[fd])
  }

  datatype ConfigError = UnknownHandler(proc: string, setting: string)

  /** What a reaction does to the outside world, in order. `Create` records
      the spawn payload the new child serves; `Raise` is an uncaught throw. */
  datatype Effect =
    | Publish(topic: string, payload: string, retain: bool)
    | Create(proc: string, launch: Launch, request: string)
    | Write(proc: string, data: string)
    | EndInput(proc: string)
    | Kill(proc: string, signal: string)
    | Raise(error: ConfigError)

  datatype Reaction = Reaction(state: ProcState, effects: seq<Effect>)

  /** Which retained-status check the router applies: the one the source
      performs, or the per-descriptor check it evidently intends. */
  datatype RetainCheck = AsWritten | PerStream

  datatype Config = Config(instance: string, retainCheck: RetainCheck)

  /** `config.name + '/status/' + procName + '/' + field`: the topic of every
      publication about a process. */
  function StatusTopic(instance: string, proc: string, field: string): (t: string)
    ensures |t| == |instance| + |proc| + |field| + 9
    ensures t[..|instance|] == instance && t[|instance|..|instance| + 8] == "/status/"
    ensures t[|t| - |field|..] == field
  {
    instance + "/status/" + proc + "/" + field
  }

  /** Number of children created by a list of effects. */
  function Creates(effects: seq<Effect>): nat
    decreases |effects|
  {
    if |effects| == 0 then 0
    else (if effects[0].Create? then 1 else 0) + Creates(effects[1..])
  }

  /** The spawn payloads served by the children created, in order. */
  function Requests(effects: seq<Effect>): (rs: seq<string>)
    ensures |rs| == Creates(effects)
    decreases |effects|
  {
    if |effects| == 0 then []
    else (if effects[0].Create? then [effects[0].request] else []) + Requests(effects[1..])
  }

  lemma {:induction false} RequestsConcat(a: seq<Effect>, b: seq<Effect>)
    ensures Requests(a + b) == Requests(a) + Requests(b)
    ensures Creates(a + b) == Creates(a) + Creates(b)
    decreases |a|
  {
    if |a| == 0 {
      assert a + b == b;
    } else {
      assert (a + b)[1..] == a[1..] + b;
      RequestsConcat(a[1..], b);
    }
  }

  predicate NoCreate(effects: seq<Effect>) {
    forall i :: 0 <= i < |effects| ==> !effects[i].Create?
  }

  lemma NoCreateConcat(a: seq<Effect>, b: seq<Effect>)
    requires NoCreate(a) && NoCreate(b)
    ensures NoCreate(a + b)
  {
    forall i | 0 <= i < |a + b| ensures !(a + b)[i].Create? {
      if i < |a| {
        assert (a + b)[i] == a[i];
      } else {
        assert (a + b)[i] == b[i - |a|];
      }
    }
  }

  lemma {:induction false} NoCreateNoRequests(effects: seq<Effect>)
    requires NoCreate(effects)
    ensures Requests(effects) == []
    decreases |effects|
  {
    if |effects| > 0 {
      NoCreateNoRequests(effects[1..]);
    }
  }
}

=== FILE: router.dfy ===
/** The MQTT message handler: topic parsing, the retained-status check and
    command dispatch to the per-process lifecycle, plus the routing of child
    events, over the whole process table. */
module Router {
  import opened Text
  import opened OutputBuffer
  import opened Model
  import opened Aggregator
  import opened Supervisor

  /** `topic.substr(n)`: the topic from position `n` on, empty past its end. */
  function Strip(topic: string, n: nat): (r: string)
    ensures n <= |topic| ==> topic[..n] + r == topic
    ensures n >= |topic| ==> r == ""
  {
    if n >= |topic| then "" else topic[n..]
  }

  /** The three topic segments the handler reads; a missing one is `undefined`. */
  datatype Route = Route(dir: Option<string>, proc: Option<string>, cmd: Option<string>)

  function Segment(parts: seq<string>, i: nat): (s: Option<string>)
    requires forall j :: 0 <= j < |parts| ==> NoSlash(parts[j])
    ensures s.Some? <==> i < |parts|
    ensures s.Some? ==> NoSlash(s.value) && s.value == parts[i]
  {
    if i < |parts| then Some(parts[i]) else None
  }

  /** `topic.substr(name.length).split('/')`, segments 1 to 3. The instance
      name is cut off by length only; it is not compared. */
  function ParseTopic(instance: string, topic: string): (rt: Route)
    ensures rt.dir.Some? ==> NoSlash(rt.dir.value)
    ensures rt.proc.Some? ==> NoSlash(rt.proc.value)
    ensures rt.cmd.Some? ==> NoSlash(rt.cmd.value)
    ensures rt.cmd.Some? ==> rt.proc.Some? && rt.dir.Some?
  {
    var parts := Split(Strip(topic, |instance|));
    Route(Segment(parts, 1), Segment(parts, 2), Segment(parts, 3))
  }

  /** Whatever the topic holds, the route is segments 1 to 3 of what follows
      the first `|instance|` characters: a prefix that is not the instance
      name is not noticed, and segments past the fourth are ignored. */
  lemma ParseTopicSegments(instance: string, topic: string, parts: seq<string>)
    requires |parts| >= 1 && forall j :: 0 <= j < |parts| ==> NoSlash(parts[j])
    requires Strip(topic, |instance|) == Join(parts)
    ensures ParseTopic(instance, topic) == Route(Segment(parts, 1), Segment(parts, 2), Segment(parts, 3))
  {
    SplitJoin(parts);
  }

  /** Extra trailing segments do not change the route. */
  lemma ParseTopicIgnoresTail(instance: string, head: seq<string>, tail: seq<string>)
    requires |head| == 4 && forall j :: 0 <= j < |head| ==> NoSlash(head[j])
    requires forall j :: 0 <= j < |tail| ==> NoSlash(tail[j])
    ensures ParseTopic(instance, instance + Join(head + tail)) == ParseTopic(instance, instance + Join(head))
  {
    var all := head + tail;
    assert forall j :: 0 <= j < |all| ==> NoSlash(all[j]) by {
      forall j | 0 <= j < |all| ensures NoSlash(all[j]) {
        if j < |head| { assert all[j] == head[j]; } else { assert all[j] == tail[j - |head|]; }
      }
    }
    assert Strip(instance + Join(all), |instance|) == Join(all) by {
      assert (instance + Join(all))[|instance|..] == Join(all);
    }
    assert Strip(instance + Join(head), |instance|) == Join(head) by {
      assert (instance + Join(head))[|instance|..] == Join(head);
    }
    ParseTopicSegments(instance, instance + Join(all), all);
    ParseTopicSegments(instance, instance + Join(head), head);
  }

  /** A topic built from an instance name and three slash-free segments
      parses back into those segments. */
  lemma ParseTopicRoundTrip(instance: string, dir: string, proc: string, cmd: string)
    requires NoSlash(dir) && NoSlash(proc) && NoSlash(cmd)
    ensures ParseTopic(instance, instance + "/" + dir + "/" + proc + "/" + cmd) == Route(Some(dir), Some(proc), Some(cmd))
  {
    var rest := "/" + dir + "/" + proc + "/" + cmd;
    var topic := instance + rest;
    assert instance + "/" + dir + "/" + proc + "/" + cmd == topic;
    assert Strip(topic, |instance|) == rest by {
      assert topic[|instance|..] == rest;
    }
    var parts := ["", dir, proc, cmd];
    assert Join(parts[3..]) == cmd;
    assert Join(parts[2..]) == proc + "/" + cmd by {
      assert parts[2..][1..] == parts[3..];
    }
    assert Join(parts[1..]) == dir + "/" + proc + "/" + cmd by {
      assert parts[1..][1..] == parts[2..];
    }
    assert Join(parts) == rest;
    assert NoSlash("");
    SplitJoin(parts);
  }

  /** Every status topic the supervisor publishes is read back by the handler
      as a status message for that process and field. */
  lemma StatusTopicRoute(instance: string, proc: string, field: string)
    requires NoSlash(proc) && NoSlash(field)
    ensures ParseTopic(instance, StatusTopic(instance, proc, field)) == Route(Some("status"), Some(proc), Some(field))
  {
    assert StatusTopic(instance, proc, field) == instance + "/" + "status" + "/" + proc + "/" + field;
    assert NoSlash("status");
    ParseTopicRoundTrip(instance, "status", proc, field);
  }

  /** A missing segment used as a property key reads as "undefined". */
  function Key(s: Option<string>): (k: string)
    ensures s.Some? ==> k == s.value
    ensures k == "undefined" <==> s.None? || s == Some("undefined")
  {
    match s
    case Some(v) => v
    case None => "undefined"
  }

  /** `[fdName]` compared with a string: a one-element array is converted to
      its element's text, and `undefined` to the empty string. */
  function ArrayText(s: Option<string>): (t: string)
    ensures s.Some? ==> t == s.value
    ensures t == "" <==> s.None? || s == Some("")
  {
    match s
    case Some(v) => v
    case None => ""
  }

  /** `fdActionHasRetain(proc, fdName)` as written. */
  function FdActionHasRetain(def: Definition, fdName: Option<string>): (b: bool)
    ensures fdName.Some? ==> (b <==> Setting(def, fdName.value) == Some("buffer_retain") || fdName.value == "stream_retain")
    ensures fdName.None? ==> (b <==> Setting(def, "undefined") == Some("buffer_retain"))
  {
    Setting(def, Key(fdName)) == Some("buffer_retain") || ArrayText(fdName) == "stream_retain"
  }

  /** The check the handler performs: `fdActionHasRetain(proc)`, with no
      descriptor, so the segment naming the stream is never consulted. */
  function RetainedAsWritten(def: Definition, fd: Option<string>): (b: bool)
    ensures b <==> Setting(def, "undefined") == Some("buffer_retain")
  {
    FdActionHasRetain(def, None)
  }

  /** The evidently intended check: the descriptor named in the topic is
      configured with a retaining mode. */
  function RetainedPerStream(def: Definition, fd: Option<string>): (b: bool)
    ensures b <==> HandlerOf(Setting(def, Key(fd))) in {BufferRetain, StreamRetain}
  {
    Setting(def, Key(fd)) == Some("buffer_retain") || Setting(def, Key(fd)) == Some("stream_retain")
  }

  function HasRetain(check: RetainCheck, def: Definition, fd: Option<string>): bool {
    match check
    case AsWritten => RetainedAsWritten(def, fd)
    case PerStream => RetainedPerStream(def, fd)
  }

  /** The as-written check does not depend on the stream at all. */
  lemma AsWrittenIgnoresStream(def: Definition, fd: Option<string>, other: Option<string>)
    ensures RetainedAsWritten(def, fd) == RetainedAsWritten(def, other)
    ensures RetainedAsWritten(def, fd) <==> Setting(def, "undefined") == Some("buffer_retain")
  {
  }

  /** The process table, by name. */
  type Table = map<string, Definition>

  /** Runtime state of every process; a process never touched is idle. */
  type World = map<string, ProcState>

  function StateOf(w: World, name: string): ProcState {
    if name in w then w[name] else Idle
  }

  predicate WorldValid(w: World) {
    forall name :: name in w ==> Valid(w[name])
  }

  lemma UpdateWorldValid(w: World, name: string, ps: ProcState)
    requires WorldValid(w) && Valid(ps)
    ensures WorldValid(w[name := ps])
  {
    var u := w[name := ps];
    forall q | q in u ensures Valid(u[q]) {
      if q != name {
        assert u[q] == w[q];
      }
    }
  }

  datatype Outcome = Outcome(world: World, effects: seq<Effect>)

  /** Hand an input to one process and store its new state. */
  function Deliver(cfg: Config, table: Table, w: World, name: string, input: Input): (r: Outcome)
    requires name in table
    ensures var step := React(cfg, name, table[name], StateOf(w, name), input);
      StateOf(r.world, name) == step.state && r.effects == step.effects
    ensures forall q :: q != name ==> StateOf(r.world, q) == StateOf(w, q)
    ensures WorldValid(w) ==> WorldValid(r.world)
  {
    var ps := StateOf(w, name);
    var step := React(cfg, name, table[name], ps, input);
    assert WorldValid(w) ==> Valid(ps);
    if WorldValid(w) then
      UpdateWorldValid(w, name, step.state);
      Outcome(w[name := step.state], step.effects)
    else
      Outcome(w[name := step.state], step.effects)
  }

  /** The command switch: `pipe`, `spawn` and `signal` become events of the
      addressed process; any other command, or none, is ignored. */
  function CommandEvent(cmd: Option<string>, payload: string): (e: Option<ProcEvent>)
    ensures e.Some? <==> cmd in {Some("pipe"), Some("spawn"), Some("signal")}
    ensures cmd == Some("pipe") ==> e == Some(Piped(payload))
    ensures cmd == Some("spawn") ==> e == Some(Spawned(payload))
    ensures cmd == Some("signal") ==> e == Some(Signalled(payload))
  {
    match cmd
    case Some(c) =>
      if c == "pipe" then Some(Piped(payload))
      else if c == "spawn" then Some(Spawned(payload))
      else if c == "signal" then Some(Signalled(payload))
      else None
    case None => None
  }

  /** The `message` handler. `pid` is what the process-creation primitive
      yields should this message start a child. */
  function OnMessage(cfg: Config, table: Table, w: World, topic: string, payload: string, retained: bool, pid: Option<nat>): (r: Outcome)
    ensures var rt := ParseTopic(cfg.instance, topic);
      Key(rt.proc) !in table ==> r == Outcome(w, [])
    ensures var rt := ParseTopic(cfg.instance, topic);
      forall q :: q != Key(rt.proc) ==> StateOf(r.world, q) == StateOf(w, q)
    ensures var rt := ParseTopic(cfg.instance, topic);
      rt.dir == Some("status") ==> r.world == w
    ensures var rt := ParseTopic(cfg.instance, topic);
      rt.dir == Some("status") && Key(rt.proc) in table ==>
        (r.effects == (if retained && !HasRetain(cfg.retainCheck, table[Key(rt.proc)], rt.cmd)
                       then [Publish(topic, "", true)] else []))
    ensures var rt := ParseTopic(cfg.instance, topic);
      rt.dir != Some("status") && CommandEvent(rt.cmd, payload).None? ==> r == Outcome(w, [])
    ensures var rt := ParseTopic(cfg.instance, topic);
      var name := Key(rt.proc);
      rt.dir != Some("status") && name in table && CommandEvent(rt.cmd, payload).Some? ==>
        var step := React(cfg, name, table[name], StateOf(w, name), Input(CommandEvent(rt.cmd, payload).value, pid));
        StateOf(r.world, name) == step.state && r.effects == step.effects
    ensures WorldValid(w) ==> WorldValid(r.world)
  {
    var rt := ParseTopic(cfg.instance, topic);
    var name := Key(rt.proc);
    if name !in table then Outcome(w, [])
    else if rt.dir == Some("status") then
      if retained && !HasRetain(cfg.retainCheck, table[name], rt.cmd) then Outcome(w, [Publish(topic, "", true)])
      else Outcome(w, [])
    else match CommandEvent(rt.cmd, payload)
      case Some(e) => Deliver(cfg, table, w, name, Input(e, pid))
      case None => Outcome(w, [])
  }

  /** Everything the supervisor reacts to: a broker message, or an event of
      a defined process's child. */
  datatype Event =
    | Message(topic: string, payload: string, retained: bool)
    | Output(proc: string, fd: ChildFd, data: string)
    | Exit(proc: string, code: Option<int>, signal: Option<string>)
    | Failure(proc: string, text: string)

  function ChildEvent(ev: Event): ProcEvent
    requires !ev.Message?
  {
    match ev
    case Output(_, fd, data) => Chunk(fd, data)
    case Exit(_, code, signal) => Exited(code, signal)
    case Failure(_, text) => Errored(text)
  }

  /** One event, with the pid a child started in reaction to it would get. */
  function Step(cfg: Config, table: Table, w: World, ev: Event, pid: Option<nat>): (r: Outcome)
    ensures ev.Message? ==> r == OnMessage(cfg, table, w, ev.topic, ev.payload, ev.retained, pid)
    ensures !ev.Message? ==> forall q :: q != ev.proc ==> StateOf(r.world, q) == StateOf(w, q)
    ensures !ev.Message? && ev.proc in table ==>
      var step := React(cfg, ev.proc, table[ev.proc], StateOf(w, ev.proc), Input(ChildEvent(ev), pid));
      StateOf(r.world, ev.proc) == step.state && r.effects == step.effects
    ensures WorldValid(w) ==> WorldValid(r.world)
  {
    if ev.Message? then OnMessage(cfg, table, w, ev.topic, ev.payload, ev.retained, pid)
    else if ev.proc !in table then Outcome(w, [])
    else Deliver(cfg, table, w, ev.proc, Input(ChildEvent(ev), pid))
  }

  /** With the as-written check, every retained status message for a defined
      process is erased, whatever the stream's configured mode, unless the
      definition happens to carry a property named "undefined" set to
      "buffer_retain". */
  lemma AsWrittenErasesRetainedStatus(table: Table, w: World, instance: string, proc: string, field: string, payload: string, pid: Option<nat>)
    requires NoSlash(proc) && NoSlash(field)
    requires proc in table && Setting(table[proc], "undefined") != Some("buffer_retain")
    ensures var topic := StatusTopic(instance, proc, field);
      OnMessage(Config(instance, AsWritten), table, w, topic, payload, true, pid) == Outcome(w, [Publish(topic, "", true)])
  {
    StatusTopicRoute(instance, proc, field);
  }

  /** With the per-stream check, a retained status message is erased exactly
      when its stream is not configured with a retaining mode. */
  lemma PerStreamErasesOnlyStale(table: Table, w: World, instance: string, proc: string, field: string, payload: string, pid: Option<nat>)
    requires NoSlash(proc) && NoSlash(field)
    requires proc in table
    ensures var topic := StatusTopic(instance, proc, field);
      var r := OnMessage(Config(instance, PerStream), table, w, topic, payload, true, pid);
      && r.world == w
      && (r.effects == [] <==> HandlerOf(Setting(table[proc], field)) in {BufferRetain, StreamRetain})
  {
    StatusTopicRoute(instance, proc, field);
  }

  /** The concrete discrepancy: a process whose stdout is `stream_retain`
      loses its retained stdout on restart under the as-written check, and
      keeps it under the per-stream one. */
  lemma RetainCheckCounterexample(w: World, pid: Option<nat>)
    ensures var def := Definition(Launch("job.sh", [], None, None, None, None, false),
                                  map["stdout" := "stream_retain"], None, false, false, false);
      var table := map["job" := def];
      var topic := StatusTopic("pc", "job", "stdout");
      && OnMessage(Config("pc", AsWritten), table, w, topic, "old output", true, pid).effects == [Publish(topic, "", true)]
      && OnMessage(Config("pc", PerStream), table, w, topic, "old output", true, pid).effects == []
  {
    var def := Definition(Launch("job.sh", [], None, None, None, None, false),
                          map["stdout" := "stream_retain"], None, false, false, false);
    var table := map["job" := def];
    assert NoSlash("job") && NoSlash("stdout");
    assert "undefined" !in def.settings;
    AsWrittenErasesRetainedStatus(table, w, "pc", "job", "stdout", "old output", pid);
    PerStreamErasesOnlyStale(table, w, "pc", "job", "stdout", "old output", pid);
  }

  /** A delivery: an event and the pid a child it starts would get. */
  datatype Delivery = Delivery(event: Event, pid: Option<nat>)

  function RunAll(cfg: Config, table: Table, w: World, ds: seq<Delivery>): Outcome
    decreases |ds|
  {
    if |ds| == 0 then Outcome(w, [])
    else
      var first := Step(cfg, table, w, ds[0].event, ds[0].pid);
      var rest := RunAll(cfg, table, first.world, ds[1..]);
      Outcome(rest.world, first.effects + rest.effects)
  }

  /** Every world reached from a valid one by any sequence of deliveries
      keeps every process valid; in particular from an all-idle world. The
      invariant: an idle process has an empty queue and every buffer's
      length matches its chunks. */
  lemma {:induction false} RunAllValid(cfg: Config, table: Table, w: World, ds: seq<Delivery>)
    requires WorldValid(w)
    ensures WorldValid(RunAll(cfg, table, w, ds).world)
    decreases |ds|
  {
    if |ds| > 0 {
      RunAllValid(cfg, table, Step(cfg, table, w, ds[0].event, ds[0].pid).world, ds[1..]);
    }
  }
}

=== FILE: supervisor.dfy ===
/** Per-process lifecycle (`processSpawn` with its exit and error handlers,
    and the `pipe` and `signal` commands): at most one child per process, a
    FIFO queue of spawn requests, and the status publications around them. */
module Supervisor {
  import opened Text
  import opened OutputBuffer
  import opened Model
  import opened Aggregator

  /** What can happen to one process: a command routed to it, or an event
      from its child. */
  datatype ProcEvent =
    | Spawned(payload: string)
    | Piped(payload: string)
    | Signalled(payload: string)
    | Chunk(fd: ChildFd, data: string)
    | Exited(code: Option<int>, signal: Option<string>)
    | Errored(text: string)

  /** An event together with the pid the process-creation primitive yields
      if the reaction to it creates a child (at most one per reaction). */
  datatype Input = Input(event: ProcEvent, pid: Option<nat>)

  lemma StatusFieldsDistinct(instance: string, name: string, f: string, g: string)
    requires f != g
    ensures StatusTopic(instance, name, f) != StatusTopic(instance, name, g)
  {
    var p := instance + "/status/" + name + "/";
    assert StatusTopic(instance, name, f) == p + f;
    assert StatusTopic(instance, name, g) == p + g;
    assert (p + f)[|p|..] == f;
    assert (p + g)[|p|..] == g;
  }

  predicate PublishesTo(effects: seq<Effect>, topic: string) {
    exists i :: 0 <= i < |effects| && effects[i].Publish? && effects[i].topic == topic
  }

  lemma RequestsOfStart(first: Effect, start: Effect, rest: seq<Effect>)
    requires !first.Create? && start.Create? && NoCreate(rest)
    ensures Requests([first, start] + rest) == [start.request]
  {
    RequestsConcat([first, start], rest);
    NoCreateNoRequests(rest);
    assert [first, start][1..] == [start];
    assert [start][1..] == [];
  }

  /** What starting a child emits: the error topic is cleared, the child is
      created, its pid is published when obtained, and the payload is fed to
      stdin when configured. */
  function StartEffects(cfg: Config, name: string, def: Definition, payload: string, pid: Option<nat>): (effects: seq<Effect>)
    ensures |effects| == 2 + (if PidKnown(pid) then 1 else 0) + (if def.stdinFromSpawnPayload then 2 else 0)
    ensures effects[0] == Publish(StatusTopic(cfg.instance, name, "error"), "", true)
    ensures effects[1] == Create(name, def.launch, payload)
    ensures PidKnown(pid) ==> effects[2] == Publish(StatusTopic(cfg.instance, name, "pid"), Decimal(pid.value), true)
    ensures Requests(effects) == [payload] && Creates(effects) == 1
    ensures PublishesTo(effects, StatusTopic(cfg.instance, name, "pid")) <==> PidKnown(pid)
    ensures def.stdinFromSpawnPayload <==> effects[|effects| - 2..] == [Write(name, payload), EndInput(name)]
  {
    var errorTopic := StatusTopic(cfg.instance, name, "error");
    var pidTopic := StatusTopic(cfg.instance, name, "pid");
    var announced := if PidKnown(pid) then [Publish(pidTopic, Decimal(pid.value), true)] else [];
    var fed := if def.stdinFromSpawnPayload then [Write(name, payload), EndInput(name)] else [];
    var effects := [Publish(errorTopic, "", true), Create(name, def.launch, payload)] + announced + fed;
    StatusFieldsDistinct(cfg.instance, name, "error", "pid");
    assert [Publish(errorTopic, "", true), Create(name, def.launch, payload)] + (announced + fed) == effects;
    RequestsOfStart(Publish(errorTopic, "", true), Create(name, def.launch, payload), announced + fed);
    assert PidKnown(pid) ==> effects[2].Publish? && effects[2].topic == pidTopic;
    effects
  }

  /** `processSpawn`. While a child runs the payload is queued (or dropped)
      and nothing else happens; otherwise the child is started, counts as
      running whether or not it got a pid, and the buffers are reset. */
  function Spawn(cfg: Config, name: string, def: Definition, ps: ProcState, payload: string, pid: Option<nat>): (r: Reaction)
    ensures ps.running.Some? ==> r.effects == [] && r.state.running == ps.running && r.state.buffers == ps.buffers
    ensures ps.running.Some? ==> r.state.queue == (if def.enqueueSpawns then ps.queue + [payload] else ps.queue)
    ensures ps.running.None? ==> r.state == ProcState(Some(Child(pid)), ps.queue, map[])
    ensures ps.running.None? ==> |r.effects| >= 2 && r.effects[0] == Publish(StatusTopic(cfg.instance, name, "error"), "", true)
    ensures ps.running.None? ==> r.effects[1] == Create(name, def.launch, payload)
    ensures ps.running.None? ==>
      |r.effects| == 2 + (if PidKnown(pid) then 1 else 0) + (if def.stdinFromSpawnPayload then 2 else 0)
    ensures ps.running.None? && PidKnown(pid) ==>
      r.effects[2] == Publish(StatusTopic(cfg.instance, name, "pid"), Decimal(pid.value), true)
    ensures ps.running.None? ==> Requests(r.effects) == [payload] && Creates(r.effects) == 1
    ensures ps.running.None? ==> (PublishesTo(r.effects, StatusTopic(cfg.instance, name, "pid")) <==> PidKnown(pid))
    ensures ps.running.None? ==>
      (def.stdinFromSpawnPayload <==> r.effects[|r.effects| - 2..] == [Write(name, payload), EndInput(name)])
    ensures Valid(ps) ==> Valid(r.state)
  {
    if ps.running.Some? then
      if def.enqueueSpawns then Reaction(ps.(queue := ps.queue + [payload]), []) else Reaction(ps, [])
    else
      Reaction(ProcState(Some(Child(pid)), ps.queue, map[]), StartEffects(cfg, name, def, payload, pid))
  }

  /** The `pipe` command: nothing when stdin is disabled or nothing runs;
      otherwise a non-empty payload is written and an empty one ends stdin. */
  function Pipe(name: string, def: Definition, ps: ProcState, payload: string): (r: Reaction)
    ensures r.state == ps
    ensures def.disableStdin || ps.running.None? ==> r.effects == []
    ensures !def.disableStdin && ps.running.Some? && |payload| > 0 ==> r.effects == [Write(name, payload)]
    ensures !def.disableStdin && ps.running.Some? && |payload| == 0 ==> r.effects == [EndInput(name)]
  {
    if def.disableStdin || ps.running.None? then Reaction(ps, [])
    else if |payload| > 0 then Reaction(ps, [Write(name, payload)])
    else Reaction(ps, [EndInput(name)])
  }

  /** The `signal` command: nothing when nothing runs; otherwise the raw
      payload goes to the kill primitive whatever it looks like (the pattern
      check on it only logs). */
  function Signal(name: string, ps: ProcState, payload: string): (r: Reaction)
    ensures r.state == ps
    ensures ps.running.None? ==> r.effects == []
    ensures ps.running.Some? ==> r.effects == [Kill(name, payload)]
  {
    if ps.running.None? then Reaction(ps, []) else Reaction(ps, [Kill(name, payload)])
  }

  /** The child's error event: the error text is published, retained, to the
      error topic; whether the process counts as running is unchanged. */
  function OnError(cfg: Config, name: string, ps: ProcState, text: string): (r: Reaction)
    ensures r.state == ps
    ensures r.effects == [Publish(StatusTopic(cfg.instance, name, "error"), text, true)]
  {
    Reaction(ps, [Publish(StatusTopic(cfg.instance, name, "error"), text, true)])
  }

  /** `'' + (code === null ? signal : code)`. */
  function ExitText(code: Option<int>, signal: Option<string>): (s: string)
    ensures code.Some? ==> s == IntText(code.value) && ParseInt(s) == code.value
    ensures code.None? && signal.Some? ==> s == signal.value
    ensures code.None? && signal.None? ==> s == "null"
  {
    match code
    case Some(c) => IntText(c)
    case None => match signal
      case Some(sig) => sig
      case None => "null"
  }

  lemma ExitTextExamples()
    ensures ExitText(Some(0), None) == "0"
    ensures ExitText(None, Some("SIGTERM")) == "SIGTERM"
  {
    assert ParseInt(ExitText(Some(0), None)) == 0;
    assert Decimal(0) == "0";
  }

  /** The exit handler up to the dequeue: flush stdout, stderr and output,
      then clear the pid and publish the exit status, all retained. The
      buffers are not cleared. */
  function Finish(cfg: Config, name: string, def: Definition, ps: ProcState, code: Option<int>, signal: Option<string>): (r: Reaction)
    ensures Keeps(ps, r.state)
    ensures 2 <= |r.effects| <= 5
    ensures AllCapture(cfg.instance, name, r.effects[..|r.effects| - 2])
    ensures r.effects[..|r.effects| - 2] == Flushes(cfg.instance, name, def, ps).effects
    ensures r.effects[|r.effects| - 2..] ==
      [Publish(StatusTopic(cfg.instance, name, "pid"), "", true),
       Publish(StatusTopic(cfg.instance, name, "exit"), ExitText(code, signal), true)]
    ensures NoCreate(r.effects)
    ensures Valid(ps) ==> Valid(r.state)
  {
    var flushed := Flushes(cfg.instance, name, def, ps);
    var status := [Publish(StatusTopic(cfg.instance, name, "pid"), "", true),
                   Publish(StatusTopic(cfg.instance, name, "exit"), ExitText(code, signal), true)];
    FinishShape(cfg.instance, name, flushed.effects, status);
    Reaction(flushed.state, flushed.effects + status)
  }

  /** The effect list of the exit handler: up to three capture publishes,
      then the two status publishes. */
  lemma FinishShape(instance: string, name: string, flushed: seq<Effect>, status: seq<Effect>)
    requires |flushed| <= 3 && AllCapture(instance, name, flushed)
    requires |status| == 2 && status[0].Publish? && status[1].Publish?
    ensures 2 <= |flushed + status| <= 5
    ensures (flushed + status)[..|flushed + status| - 2] == flushed
    ensures (flushed + status)[|flushed + status| - 2..] == status
    ensures NoCreate(flushed + status)
  {
    SplitAtStatus(flushed, status);
    PublishesOnly(instance, name, flushed, status);
  }

  lemma SplitAtStatus(a: seq<Effect>, status: seq<Effect>)
    requires |status| == 2
    ensures (a + status)[..|a + status| - 2] == a
    ensures (a + status)[|a + status| - 2..] == status
  {
  }

  lemma PublishesOnly(instance: string, name: string, a: seq<Effect>, status: seq<Effect>)
    requires AllCapture(instance, name, a)
    requires forall i :: 0 <= i < |status| ==> status[i].Publish?
    ensures NoCreate(a + status)
  {
    forall i | 0 <= i < |a + status| ensures !(a + status)[i].Create? {
      if i < |a| {
        assert (a + status)[i] == a[i];
      } else {
        assert (a + status)[i] == status[i - |a|];
      }
    }
  }

  /** The end of the exit handler: mark idle, and if requests are queued
      start the oldest one. */
  function Dequeue(cfg: Config, name: string, def: Definition, s: ProcState, pid: Option<nat>): (r: Reaction)
    ensures s.queue == [] ==> r.state.running.None? && r.state.queue == [] && r.effects == []
    ensures s.queue == [] ==> r.state.buffers == s.buffers
    ensures s.queue != [] ==> r.state.buffers == map[]
    ensures s.queue != [] ==> r.effects == StartEffects(cfg, name, def, s.queue[0], pid)
    ensures s.queue != [] ==>
      && r.state.running == Some(Child(pid))
      && r.state.queue == s.queue[1..]
      && Requests(r.effects) == [s.queue[0]]
    ensures (forall fd :: fd in s.buffers ==> WellFormed(s.buffers[fd])) ==> Valid(r.state)
  {
    var idle := s.(running := None);
    if idle.queue == [] then Reaction(idle, [])
    else Spawn(cfg, name, def, idle.(queue := idle.queue[1..]), idle.queue[0], pid)
  }

  /** The exit handler: finish, mark idle, and if requests are queued start
      the oldest one. */
  function OnExit(cfg: Config, name: string, def: Definition, ps: ProcState, code: Option<int>, signal: Option<string>, pid: Option<nat>): (r: Reaction)
    ensures var done := Finish(cfg, name, def, ps, code, signal);
      |done.effects| <= |r.effects| && r.effects[..|done.effects|] == done.effects
    ensures ps.queue == [] ==> r.state.running.None? && r.state.queue == [] && Creates(r.effects) == 0
    ensures ps.queue == [] ==> r.effects == Finish(cfg, name, def, ps, code, signal).effects
    ensures ps.queue == [] ==> forall fd :: fd in ps.buffers ==> fd in r.state.buffers && r.state.buffers[fd] == ps.buffers[fd]
    ensures ps.queue != [] ==> r.state.buffers == map[]
    ensures ps.queue != [] ==>
      r.effects[|Finish(cfg, name, def, ps, code, signal).effects|..] == StartEffects(cfg, name, def, ps.queue[0], pid)
    ensures ps.queue != [] ==>
      && r.state.running == Some(Child(pid))
      && r.state.queue == ps.queue[1..]
      && Requests(r.effects) == [ps.queue[0]]
    ensures Valid(ps) ==> Valid(r.state)
  {
    var done := Finish(cfg, name, def, ps, code, signal);
    var next := Dequeue(cfg, name, def, done.state, pid);
    ExitCompose(ps, done.state, done.effects, next, pid);
    Reaction(next.state, done.effects + next.effects)
  }

  /** The exit handler's result from what the flush and the dequeue each
      promise. */
  lemma ExitCompose(ps: ProcState, finished: ProcState, flushed: seq<Effect>, next: Reaction, pid: Option<nat>)
    requires Keeps(ps, finished) && NoCreate(flushed)
    requires finished.queue == [] ==>
      next.state.running.None? && next.state.queue == [] && next.effects == [] && next.state.buffers == finished.buffers
    requires finished.queue != [] ==>
      && next.state.running == Some(Child(pid))
      && next.state.queue == finished.queue[1..]
      && Requests(next.effects) == [finished.queue[0]]
      && next.state.buffers == map[]
    ensures var effects := flushed + next.effects;
      && |flushed| <= |effects| && effects[..|flushed|] == flushed && effects[|flushed|..] == next.effects
      && (ps.queue == [] ==> next.state.running.None? && next.state.queue == [] && Creates(effects) == 0)
      && (ps.queue == [] ==> effects == flushed)
      && (ps.queue == [] ==> forall fd :: fd in ps.buffers ==> fd in next.state.buffers && next.state.buffers[fd] == ps.buffers[fd])
      && (ps.queue != [] ==> next.state.buffers == map[])
      && (ps.queue != [] ==>
           && next.state.running == Some(Child(pid))
           && next.state.queue == ps.queue[1..]
           && Requests(effects) == [ps.queue[0]])
  {
    NoCreateNoRequests(flushed);
    RequestsConcat(flushed, next.effects);
    PrefixOfConcat(flushed, next.effects);
    if ps.queue == [] {
      assert flushed + next.effects == flushed;
    }
  }

  lemma PrefixOfConcat<T>(a: seq<T>, b: seq<T>)
    ensures (a + b)[..|a|] == a
  {
  }

  /** The spawn requests an input accepts: the payload of a spawn that either
      starts a child or is queued. */
  function Accepted(def: Definition, ps: ProcState, input: Input): seq<string> {
    if input.event.Spawned? && (ps.running.None? || def.enqueueSpawns) then [input.event.payload] else []
  }

  lemma SpawnLedger(cfg: Config, name: string, def: Definition, ps: ProcState, payload: string, pid: Option<nat>)
    ensures var r := Spawn(cfg, name, def, ps, payload, pid);
      Valid(ps) ==> Requests(r.effects) + r.state.queue == ps.queue + (if ps.running.None? || def.enqueueSpawns then [payload] else [])
  {
    var r := Spawn(cfg, name, def, ps, payload, pid);
    if Valid(ps) {
      if ps.running.None? {
        assert Requests(r.effects) == [payload] && r.state.queue == [] && ps.queue == [];
      } else {
        assert r.effects == [];
        assert Requests(r.effects) == [];
      }
    }
  }

  /** What `OnExit` promises about the queue, as a ledger. */
  lemma ExitLedger(q: seq<string>, r: Reaction)
    requires q == [] ==> r.state.queue == [] && Creates(r.effects) == 0
    requires q != [] ==> r.state.queue == q[1..] && Requests(r.effects) == [q[0]]
    ensures Requests(r.effects) + r.state.queue == q
  {
    if q == [] {
      assert |Requests(r.effects)| == 0;
    } else {
      assert [q[0]] + q[1..] == q;
    }
  }

  /** The reaction of one process to one input. The ledger clause says the
      children started, followed by what is still queued, are what was queued
      before followed by what this input had accepted. */
  function React(cfg: Config, name: string, def: Definition, ps: ProcState, input: Input): (r: Reaction)
    ensures Valid(ps) ==> Valid(r.state)
    ensures ps.running.Some? && !input.event.Exited? ==> Creates(r.effects) == 0 && r.state.running == ps.running
    ensures !input.event.Spawned? && !input.event.Exited? ==> r.state.queue == ps.queue && Creates(r.effects) == 0
    ensures Valid(ps) ==> Requests(r.effects) + r.state.queue == ps.queue + Accepted(def, ps, input)
  {
    match input.event
    case Spawned(payload) =>
      SpawnLedger(cfg, name, def, ps, payload, input.pid);
      Spawn(cfg, name, def, ps, payload, input.pid)
    case Piped(payload) =>
      NoChangeLedger(ps.queue);
      Pipe(name, def, ps, payload)
    case Signalled(payload) =>
      NoChangeLedger(ps.queue);
      Signal(name, ps, payload)
    case Chunk(fd, data) =>
      var r := HandleOutput(cfg.instance, name, def, ps, fd, data);
      NoCreateNoRequests(r.effects);
      NoChangeLedger(ps.queue);
      r
    case Exited(code, signal) =>
      var r := OnExit(cfg, name, def, ps, code, signal, input.pid);
      ExitLedger(ps.queue, r);
      assert ps.queue + [] == ps.queue;
      r
    case Errored(text) =>
      NoChangeLedger(ps.queue);
      OnError(cfg, name, ps, text)
  }

  lemma NoChangeLedger(q: seq<string>)
    ensures [] + q == q + []
  {
  }

  /** Reactions to a sequence of inputs, effects in order. */
  function Run(cfg: Config, name: string, def: Definition, ps: ProcState, inputs: seq<Input>): Reaction
    decreases |inputs|
  {
    if |inputs| == 0 then Reaction(ps, [])
    else
      var step := React(cfg, name, def, ps, inputs[0]);
      var rest := Run(cfg, name, def, step.state, inputs[1..]);
      Reaction(rest.state, step.effects + rest.effects)
  }

  /** All spawn requests accepted along a run, in arrival order. */
  function AcceptedRun(cfg: Config, name: string, def: Definition, ps: ProcState, inputs: seq<Input>): seq<string>
    decreases |inputs|
  {
    if |inputs| == 0 then []
    else Accepted(def, ps, inputs[0]) + AcceptedRun(cfg, name, def, React(cfg, name, def, ps, inputs[0]).state, inputs[1..])
  }

  lemma {:induction false} RunPreservesValid(cfg: Config, name: string, def: Definition, ps: ProcState, inputs: seq<Input>)
    requires Valid(ps)
    ensures Valid(Run(cfg, name, def, ps, inputs).state)
    decreases |inputs|
  {
    if |inputs| > 0 {
      RunPreservesValid(cfg, name, def, React(cfg, name, def, ps, inputs[0]).state, inputs[1..]);
    }
  }

  /** Queue ledger for a whole run. */
  lemma {:induction false} FifoLedger(cfg: Config, name: string, def: Definition, ps: ProcState, inputs: seq<Input>)
    requires Valid(ps)
    ensures var r := Run(cfg, name, def, ps, inputs);
      Requests(r.effects) + r.state.queue == ps.queue + AcceptedRun(cfg, name, def, ps, inputs)
    decreases |inputs|
  {
    if |inputs| == 0 {
      assert ps.queue + [] == ps.queue;
    } else {
      var step := React(cfg, name, def, ps, inputs[0]);
      var rest := Run(cfg, name, def, step.state, inputs[1..]);
      FifoLedger(cfg, name, def, step.state, inputs[1..]);
      RequestsConcat(step.effects, rest.effects);
      LedgerCompose(Requests(step.effects), Requests(rest.effects), step.state.queue, rest.state.queue, ps.queue,
                    Accepted(def, ps, inputs[0]), AcceptedRun(cfg, name, def, step.state, inputs[1..]));
    }
  }

  /** Two ledger steps compose into one. */
  lemma LedgerCompose<T>(s1: seq<T>, s2: seq<T>, q1: seq<T>, q2: seq<T>, q0: seq<T>, a1: seq<T>, a2: seq<T>)
    requires s1 + q1 == q0 + a1
    requires s2 + q2 == q1 + a2
    ensures (s1 + s2) + q2 == q0 + (a1 + a2)
  {
    calc {
      (s1 + s2) + q2;
      s1 + (s2 + q2);
      s1 + (q1 + a2);
      (s1 + q1) + a2;
      (q0 + a1) + a2;
    }
  }

  /** FIFO law: from an idle process, the children started serve accepted
      spawn requests in exactly the order they were accepted, none skipped,
      and the ones not yet started are the queue. */
  lemma FifoOrder(cfg: Config, name: string, def: Definition, inputs: seq<Input>)
    ensures var r := Run(cfg, name, def, Idle, inputs);
      var accepted := AcceptedRun(cfg, name, def, Idle, inputs);
      && Requests(r.effects) <= accepted
      && accepted[|Requests(r.effects)|..] == r.state.queue
  {
    FifoLedger(cfg, name, def, Idle, inputs);
    var r := Run(cfg, name, def, Idle, inputs);
    var accepted := AcceptedRun(cfg, name, def, Idle, inputs);
    assert [] + accepted == accepted;
    assert accepted == Requests(r.effects) + r.state.queue;
  }

  function Live(ps: ProcState): nat {
    if ps.running.Some? then 1 else 0
  }

  /** The environment's side of the contract: a child's exit is only
      reported while that child is the running one. */
  predicate Admissible(cfg: Config, name: string, def: Definition, ps: ProcState, inputs: seq<Input>)
    decreases |inputs|
  {
    |inputs| == 0 ||
    ((inputs[0].event.Exited? ==> ps.running.Some?) &&
     Admissible(cfg, name, def, React(cfg, name, def, ps, inputs[0]).state, inputs[1..]))
  }

  function ExitCount(inputs: seq<Input>): nat
    decreases |inputs|
  {
    if |inputs| == 0 then 0 else (if inputs[0].event.Exited? then 1 else 0) + ExitCount(inputs[1..])
  }

  lemma StepChildren(cfg: Config, name: string, def: Definition, ps: ProcState, input: Input)
    requires Valid(ps)
    requires input.event.Exited? ==> ps.running.Some?
    ensures var r := React(cfg, name, def, ps, input);
      Creates(r.effects) + Live(ps) == Live(r.state) + (if input.event.Exited? then 1 else 0)
  {
  }

  /** Single-instance law: every child ever created has either exited or is
      the one running child, so a process never has two children at once. */
  lemma {:induction false} ChildBalance(cfg: Config, name: string, def: Definition, ps: ProcState, inputs: seq<Input>)
    requires Valid(ps)
    requires Admissible(cfg, name, def, ps, inputs)
    ensures var r := Run(cfg, name, def, ps, inputs);
      Creates(r.effects) + Live(ps) == Live(r.state) + ExitCount(inputs)
    decreases |inputs|
  {
    if |inputs| > 0 {
      var step := React(cfg, name, def, ps, inputs[0]);
      var rest := Run(cfg, name, def, step.state, inputs[1..]);
      StepChildren(cfg, name, def, ps, inputs[0]);
      ChildBalance(cfg, name, def, step.state, inputs[1..]);
      RequestsConcat(step.effects, rest.effects);
    }
  }
}

=== FILE: text.dfy ===
/** Text helpers the supervisor relies on: JavaScript's decimal rendering of
    numbers (pids, exit codes, the clipped-bytes count) and `split('/')` on
    topic strings, each with the inverse that shows nothing is lost. */
module Text {

  predicate IsDigit(c: char) {
    '0' <= c <= '9'
  }

  function Digit(d: nat): char
    requires d < 10
  {
    ('0' as int + d) as char
  }

  function DigitValue(c: char): int {
    c as int - '0' as int
  }

  /** `'' + n` for a non-negative integer: shortest decimal, no leading zero. */
  function Decimal(n: nat): (s: string)
    ensures |s| >= 1
    ensures forall i :: 0 <= i < |s| ==> IsDigit(s[i])
    ensures s[0] == '0' <==> n == 0
    decreases n
  {
    if n < 10 then [Digit(n)] else Decimal(n / 10) + [Digit(n % 10)]
  }

  /** Reads a run of decimal digits back into a number. */
  function ParseDecimal(s: string): int
    decreases |s|
  {
    if |s| == 0 then 0 else 10 * ParseDecimal(s[..|s| - 1]) + DigitValue(s[|s| - 1])
  }

  lemma {:induction false} DecimalRoundTrip(n: nat)
    ensures ParseDecimal(Decimal(n)) == n
    decreases n
  {
    var s := Decimal(n);
    if n < 10 {
      assert s[..|s| - 1] == [];
    } else {
      assert s[..|s| - 1] == Decimal(n / 10);
      DecimalRoundTrip(n / 10);
    }
  }

  /** Reads an optionally signed decimal number. */
  function ParseInt(s: string): int {
    if |s| > 0 && s[0] == '-' then -ParseDecimal(s[1..]) else ParseDecimal(s)
  }

  /** `'' + i` for any integer: a minus sign for negatives, then the decimal digits. */
  function IntText(i: int): (s: string)
    ensures |s| >= 1
    ensures s[0] == '-' <==> i < 0
    ensures i < 0 ==> |s| >= 2
    ensures forall k :: (if i < 0 then 1 else 0) <= k < |s| ==> IsDigit(s[k])
    ensures i != 0 ==> s[if i < 0 then 1 else 0] != '0'
    ensures ParseInt(s) == i
  {
    if i < 0 then
      var d := Decimal(-i);
      DecimalRoundTrip(-i);
      assert ("-" + d)[1..] == d;
      "-" + d
    else
      DecimalRoundTrip(i);
      Decimal(i)
  }

  /** Inverse of `Split`: the parts glued back together with '/'. */
  function Join(parts: seq<string>): string
    requires |parts| >= 1
    decreases |parts|
  {
    if |parts| == 1 then parts[0] else parts[0] + "/" + Join(parts[1..])
  }

  predicate NoSlash(s: string) {
    '/' !in s
  }

  /** JavaScript's `s.split('/')`: always at least one part, and the empty
      string splits into one empty part. */
  function Split(s: string): (parts: seq<string>)
    ensures |parts| >= 1
    ensures forall i :: 0 <= i < |parts| ==> NoSlash(parts[i])
    ensures Join(parts) == s
    decreases |s|
  {
    if |s| == 0 then [""]
    else
      var rest := Split(s[1..]);
      if s[0] == '/' then
        assert s == "/" + s[1..];
        [""] + rest
      else
        var parts := [[s[0]] + rest[0]] + rest[1..];
        assert parts[1..] == rest[1..];
        assert s == [s[0]] + s[1..];
        parts
  }

  lemma {:induction false} SplitWhole(p: string)
    requires NoSlash(p)
    ensures Split(p) == [p]
    decreases |p|
  {
    if |p| > 0 {
      assert NoSlash(p[1..]) by {
        forall i | 0 <= i < |p[1..]| ensures p[1..][i] != '/' {
          assert p[1..][i] == p[i + 1];
        }
      }
      SplitWhole(p[1..]);
      assert [p[0]] + p[1..] == p;
    }
  }

  lemma {:induction false} SplitAfter(p: string, t: string)
    requires NoSlash(p)
    ensures Split(p + "/" + t) == [p] + Split(t)
    decreases |p|
  {
    var s := p + "/" + t;
    if |p| == 0 {
      assert s == "/" + t;
      assert s[1..] == t;
    } else {
      assert s[1..] == p[1..] + "/" + t;
      assert NoSlash(p[1..]) by {
        forall i | 0 <= i < |p[1..]| ensures p[1..][i] != '/' {
          assert p[1..][i] == p[i + 1];
        }
      }
      SplitAfter(p[1..], t);
      assert [p[0]] + p[1..] == p;
    }
  }

  /** Splitting undoes joining whenever no part contains the separator. */
  lemma {:induction false} SplitJoin(parts: seq<string>)
    requires |parts| >= 1
    requires forall i :: 0 <= i < |parts| ==> NoSlash(parts[i])
    ensures Split(Join(parts)) == parts
    decreases |parts|
  {
    if |parts| == 1 {
      SplitWhole(parts[0]);
    } else {
      assert NoSlash(parts[0]);
      SplitAfter(parts[0], Join(parts[1..]));
      assert forall i :: 0 <= i < |parts[1..]| ==> NoSlash(parts[1..][i]) by {
        forall i | 0 <= i < |parts[1..]| ensures NoSlash(parts[1..][i]) {
          assert parts[1..][i] == parts[i + 1];
        }
      }
      SplitJoin(parts[1..]);
      assert [parts[0]] + parts[1..] == parts;
    }
  }
}
